=== FILE: README.md ===
# autoscanner core in Dafny

autoscanner watches a screen region. It grabs a reference screenshot and then,
once per cycle, grabs a new one and compares it with the reference. It raises
an alert when the difference exceeds a threshold. This project models the two
parts of it whose behaviour can be stated precisely:

- **The image comparator** `ScannerTools.compareImages` (`scanner_tools.py`).
  It sums the absolute sample differences of two images. A one-band (gray)
  image adds one difference per pixel; a multi-band image adds one per channel.
  The total is normalised as `(dif / 255.0 * 100) / (width * height * 3)`, so
  the divisor counts three components per pixel even for gray images.
  Modules `Imaging` (images as PIL's `getdata()` yields them) and `Comparator`.
- **The monitoring loop** `ImageProcessor` (`src/autoscanner/tools/imageprocessor.py`).
  Its attributes, `__init__`, `config` and `set_cyclic_image` become an
  immutable `Processor` record and functions on it. Its `process` method
  becomes a step machine (module `ImageProcessor`) with phases
  `Countdown(remaining)`, `Awaiting`, `Done(exceeded)` and `Aborted`. Each
  step is one check of the `exiting` flag. It consumes one `Input`: whether
  another thread set `exiting`, and the image it passed to
  `set_cyclic_image`, if any. In `Awaiting` the input also stands for the
  wake. The signals `request_image`, `comparison_done(result)` and
  `finished(thr_exceeded)` are appended to a trace as `Request`,
  `Compared(score)` and `Finished(exceeded)`. Module `ProcessorTraces` proves
  properties of the trace for every processor and every finite input
  sequence. Module `ProcessorLoop` restates `process` with its two nested
  `while` loops and proves that it emits exactly the step machine's trace.

Modelling choices:

- Pixels are sequences of integers in 0..255, one per band; the gray branch
  reads a pixel's only sample. Sums are `nat`; scores are exact `real`s.
- `compareImages` divides by zero on an image without pixels. This is a
  `Failure(ZeroDivision)` result. In `process` that exception ends the run
  without `finished`: the phase `Aborted`. The run aborts in the same way when
  it wakes before any image was ever stored, because `convert_image(None)`
  raises.
- `izip` silently truncates when the two images have different pixel
  counts, and the subtraction raises `TypeError` when only one of them has a
  single band (an integer minus a tuple, or `zip` over an integer). The
  model instead requires both images to have the same width, height and
  band count (`SameShape`), and every image passed to the processor must
  have the reference's shape.
- `exiting` is sticky within a run: once set, it stays set until the run
  ends. The application sets it to false only before starting the worker
  thread. Under this reading the checks with no `sleep`, `wait` or emitted
  signal between them give the same traces as one check, and the step
  machine merges them.
  With `cycle_time` = n > 0 a cycle has n + 1 countdown steps:
  `Countdown(n)` is the outer `while` with the first inner `while` test;
  `Countdown(n - 1)` .. `Countdown(1)` are the inner tests after each
  `sleep`; `Countdown(0)` is the last inner test with the `if` after the
  countdown. With n <= 0 the outer `while`, the inner test and that `if`
  form the single step `Countdown(n)`. The `Awaiting` step is the `if` after
  the wait alone; the outer `while` after it is the first step of the next
  `Countdown(cycle_time)`, with an observation of its own.
- `process` calls `ScanTools.compare_images` and `ScanTools.convert_image`
  from `autoscanner/tools/scantools.py`. That module is not part of this
  model. `ScannerTools.compareImages` from `scanner_tools.py` stands in for
  the comparison, and the conversion is the identity.

The code differs from what one might expect of such a watchdog in these points, and the model follows the code:

- The countdown tick is one second (`time.sleep(1)`), not 100 ms. The model
  counts ticks and does not model their duration.
- There is no dimension-mismatch error: `izip` truncates differing pixel
  counts, and a band-count mismatch surfaces as a `TypeError`. See above.
- `set_cyclic_image` has no phase check. An image stored during the countdown
  is not discarded: the next comparison uses whatever image was stored last
  (`ComparisonOperands`, `StoredImageIsLatest`).
- On a wake by timeout there is no capture-timeout error. The loop compares
  with the stored image, or aborts if there is none.

## Model

| member | source | states |
|---|---|---|
| Comparator.CompareImages | scanner_tools.py:37-47 | raises (division by zero) exactly when the images have no pixels; otherwise the score is non-negative |
| Comparator.SumDifferences | scanner_tools.py:38-43 | one pass over the pixel pairs, with an inner pass over the channel pairs for more than one band, computes the same total as the recursive definition of both branches |
| Comparator.SumGray | scanner_tools.py:41 | the generator over gray pixel pairs adds up to the recursive gray-branch total: one absolute difference per pixel |
| Comparator.SumChannels | scanner_tools.py:43 | the generator over pixel pairs and their channels adds up to the recursive multi-band total: one absolute difference per channel of every pixel |
| Comparator.CompareIdentity | scanner_tools.py:38-47 | comparing an image with itself scores exactly 0 |
| Comparator.CompareZeroIdentical | scanner_tools.py:38-47 | conversely, a score of exactly 0 means the two images are pixel-identical: 0 means identical in both directions |
| Comparator.CompareSymmetric | scanner_tools.py:38-47 | swapping the two images leaves the result unchanged, because each absolute difference is symmetric |
| Comparator.TotalDiffBound | scanner_tools.py:38-43 | the summed difference is at most 255 per sample: `255 * width * height * bands` |
| Comparator.CompareBound | scanner_tools.py:39-47 | because the divisor always counts 3 components per pixel, the score is at most `100 * bands / 3` |
| Comparator.GrayCompareBound | scanner_tools.py:39-45 | a one-band image never scores above 100/3 |
| Comparator.ColorCompareBound | scanner_tools.py:42-47 | a three-band image never scores above 100 |
| Comparator.BlackWhiteScore | scanner_tools.py:39-47 | all-black against all-white scores exactly `100 * bands / 3`: 100 for three bands, 100/3 for gray |
| Comparator.GrayBranchAgrees | scanner_tools.py:39-43 | on one-sample pixels, one difference per pixel (gray branch) equals one difference per channel (multi-band branch) |
| Comparator.CompareMonotone | scanner_tools.py:41-47 | if one pair's sample differences dominate another pair's everywhere, its score is at least as high |
| ImageProcessor.Configure | src/autoscanner/tools/imageprocessor.py:34-39 | `config` marks the processor configured with the given threshold, cycle time and reference, and leaves `exiting` and the stored cyclic image as they were |
| ImageProcessor.Start | src/autoscanner/tools/imageprocessor.py:44-51 | without `config`, `process` emits `finished(False)` and returns; with it, the first cycle starts a full countdown of `cycle_time` ticks with nothing emitted yet |
| ImageProcessor.Step | src/autoscanner/tools/imageprocessor.py:50-77 | a check only appends signals and records what the other threads did; a returned or aborted run ignores further observations |
| ImageProcessor.Exec | src/autoscanner/tools/imageprocessor.py:44-79 | over any sequence of checks the configuration is untouched and no signal is retracted |
| ProcessorTraces.RunShaped | src/autoscanner/tools/imageprocessor.py:44-79 | every trace is a run of completed cycles (request, result at or below the threshold) followed by the events of the current or final cycle |
| ProcessorTraces.UnconfiguredRun | src/autoscanner/tools/imageprocessor.py:44-46 | without `config`, `process` emits `finished(False)` and nothing else |
| ProcessorTraces.FreshProcessorRun | src/autoscanner/tools/imageprocessor.py:24-32 | a processor fresh from `__init__` only ever emits `finished(False)` |
| ProcessorTraces.FinishedOnceAndLast | src/autoscanner/tools/imageprocessor.py:44-79 | `finished` is emitted at most once, as the last signal, exactly when the run has returned, carrying its verdict |
| ProcessorTraces.VerdictMatchesLastScore | src/autoscanner/tools/imageprocessor.py:73-79 | a returned run reports `finished(True)` exactly when its last result exceeded the configured threshold |
| ProcessorTraces.BreachEndsRun | src/autoscanner/tools/imageprocessor.py:73-77 | a result above the threshold is immediately followed by `finished(True)` and nothing else; no later request |
| ProcessorTraces.RequestsPairWithComparisons | src/autoscanner/tools/imageprocessor.py:60-73 | each result directly follows a request; requests equal results, or exceed them by one while the last request is unanswered |
| ProcessorTraces.StopEndsRun | src/autoscanner/tools/imageprocessor.py:50-67 | a live run that sees `exiting` at its next check, in the countdown or after the wait, returns `finished(False)` there with no comparison |
| ProcessorTraces.StopObservedAtNextCheck | src/autoscanner/tools/imageprocessor.py:50-67 | setting `exiting` before any check of a live run ends the run at that check with `finished(False)` |
| ProcessorTraces.CountdownTicks | src/autoscanner/tools/imageprocessor.py:51-55 | the first `remaining` checks of a countdown never request an image; undisturbed, each ticks once |
| ProcessorTraces.CountdownRequests | src/autoscanner/tools/imageprocessor.py:51-61 | undisturbed, a countdown from `n` requests an image at its `max(n, 0) + 1`-th check: after `n` ticks when `n` is positive, and at the first check when `cycle_time` is zero or negative, because the inner `while` never runs |
| ProcessorTraces.StoredImageIsLatest | src/autoscanner/tools/imageprocessor.py:41-42 | the stored image is always the one most recently passed to `set_cyclic_image`, and `exiting` is set exactly when some input set it |
| ProcessorTraces.ComparisonOperands | src/autoscanner/tools/imageprocessor.py:66-77 | a check emits a result exactly when it wakes a parked run without `exiting`, with an image stored and a reference that has pixels; each result compares the reference stored by `config` with the most recently stored image; above the configured threshold the run returns `finished(True)`, otherwise a fresh countdown of `cycle_time` starts |
| ProcessorTraces.AllComparisonOperands | src/autoscanner/tools/imageprocessor.py:69-73 | every `comparison_done` of a run, not only the latest, was emitted by one particular check, and carries the score of comparing the reference with the image stored at that very check |
| ProcessorTraces.ConfiguredRun | src/autoscanner/tools/imageprocessor.py:34-79 | after `config(threshold, cycle_time, img_init)`, `process` starts a countdown of `cycle_time` ticks with nothing emitted; every result compares `img_init` with the image stored at the check that emitted it, the one most recently passed to `set_cyclic_image` by then; a result above `threshold` is followed by `finished(True)` alone; a returned run reports `finished(True)` exactly when its last result exceeds `threshold` |
| ProcessorLoop.Process | src/autoscanner/tools/imageprocessor.py:44-79 | the nested-loop form of `process` emits exactly the step machine's signals and ends in its phase |

## Left out

- `ScannerTools.convertImage` and `ScannerTools.getFullScreenGeometry`: calls into Qt and PIL (PNG round-trip through buffers, desktop geometry query).
- The Qt main window, the rubber-band selection overlay, the sound alarm loop and the Pushbullet client: user interface, audio and network I/O.
- Real sleeping, the `QMutex`/`QWaitCondition` handshake and the wait timeout value: the wake is an input of the step machine. The source passes `time=3600` to `QWaitCondition.wait`, which Qt reads as milliseconds.
- Floating-point rounding: scores are exact reals.
- Thread-safety of the unsynchronised `exiting` flag, and clearing it during a run: the flag is modelled as sticky within a run.
- Calls to `config` during a run: the application only calls it while the worker thread is stopped, so the configuration is fixed for a run.
- Images of different shapes: the source truncates with `izip` when the pixel counts differ and raises `TypeError` when only one image has a single band; the model requires equal shapes instead.

=== FILE: comparator.dfy ===
/**
  The image comparator `ScannerTools.compareImages`: the summed absolute
  difference of two images of the same shape, normalised against
  `width * height * 3` full-scale components whatever the band count.
 */
module Comparator {
  import opened Wrappers
  import opened Imaging

  /** The one way the comparison raises: an image without pixels divides by zero. */
  datatype CompareError = ZeroDivision

  function AbsDiff(x: int, y: int): nat
  {
    if x >= y then x - y else y - x
  }

  /** Pixel sequences of equal length whose pixels pair up sample for sample. */
  predicate Aligned(ps: seq<Pixel>, qs: seq<Pixel>)
  {
    && |ps| == |qs|
    && forall i :: 0 <= i < |ps| ==> |ps[i]| == |qs[i]|
  }

  /** Aligned sequences whose pixels all carry exactly `bands` samples. */
  predicate Paired(ps: seq<Pixel>, qs: seq<Pixel>, bands: nat)
  {
    && Aligned(ps, qs)
    && forall i :: 0 <= i < |ps| ==> |ps[i]| == bands
  }

  /** Sum over the channels of one pixel pair (the inner `zip(p1, p2)`). */
  function PixelSum(p: Pixel, q: Pixel): nat
    requires |p| == |q|
    decreases |p|
  {
    if |p| == 0 then 0
    else PixelSum(p[..|p| - 1], q[..|q| - 1]) + AbsDiff(p[|p| - 1], q[|q| - 1])
  }

  /** The gray-scale branch: one difference per pixel, read from its only sample. */
  function GraySum(ps: seq<Pixel>, qs: seq<Pixel>): nat
    requires Paired(ps, qs, 1)
    decreases |ps|
  {
    if |ps| == 0 then 0
    else GraySum(ps[..|ps| - 1], qs[..|qs| - 1]) + AbsDiff(ps[|ps| - 1][0], qs[|qs| - 1][0])
  }

  /** The multi-band branch: one difference per channel of every pixel. */
  function ChannelSum(ps: seq<Pixel>, qs: seq<Pixel>): nat
    requires Aligned(ps, qs)
    decreases |ps|
  {
    if |ps| == 0 then 0
    else ChannelSum(ps[..|ps| - 1], qs[..|qs| - 1]) + PixelSum(ps[|ps| - 1], qs[|qs| - 1])
  }

  /** `dif`: the branch is chosen by the band count of the first image. */
  function TotalDiff(a: Image, b: Image): nat
    requires SameShape(a, b)
  {
    if a.bands == 1 then GraySum(a.data, b.data) else ChannelSum(a.data, b.data)
  }

  /**
    `compareImages`: `(dif / 255.0 * 100) / (width * height * 3)`, raising on an
    image without pixels. Scores are exact reals here.
   */
  function CompareImages(a: Image, b: Image): (r: Result<real, CompareError>)
    requires SameShape(a, b)
    ensures r.Failure? <==> a.width * a.height == 0
    ensures r.Success? ==> r.value >= 0.0
  {
    var ncomponents := a.width * a.height * 3;
    if ncomponents == 0 then Failure(ZeroDivision)
    else Success(Normalise(TotalDiff(a, b), a.width * a.height))
  }

  // ---------------------------------------------------------------------------
  // Normalisation arithmetic

  lemma DivMul(x: real, den: real)
    requires den > 0.0
    ensures (x / den) * den == x
  {
  }

  lemma MulMonotone(q: real, z: real, den: real)
    requires den > 0.0 && q > z
    ensures q * den > z * den
  {
  }

  /** Dividing by a positive `den` keeps an upper bound `z` whenever `x <= z * den`. */
  lemma DivAtMost(x: real, den: real, z: real)
    requires den > 0.0 && x <= z * den
    ensures x / den <= z
  {
    DivMul(x, den);
    if x / den > z {
      MulMonotone(x / den, z, den);
    }
  }

  lemma DivExact(x: real, den: real, z: real)
    requires den > 0.0 && x == z * den
    ensures x / den == z
  {
    DivAtMost(x, den, z);
    DivMul(x, den);
  }

  /** The score of a total `d` over `k` pixels, exactly as `compareImages` normalises it. */
  function Normalise(d: nat, k: nat): real
    requires k > 0
  {
    (d as real / 255.0 * 100.0) / ((k * 3) as real)
  }

  /** A total of at most `255 * k * bands` scores at most `100 * bands / 3`, and exactly that at the maximum. */
  lemma NormaliseBound(d: nat, k: nat, bands: nat)
    requires k > 0
    requires d <= 255 * k * bands
    ensures Normalise(d, k) <= (100 * bands) as real / 3.0
    ensures d == 255 * k * bands ==> Normalise(d, k) == (100 * bands) as real / 3.0
  {
    var x := d as real / 255.0 * 100.0;
    var z := (100 * bands) as real / 3.0;
    assert (255 * k * bands) as real == 255.0 * (k as real) * (bands as real);
    assert ((k * 3) as real) == 3.0 * (k as real);
    assert z * ((k * 3) as real) == 100.0 * (bands as real) * (k as real);
    assert x <= 100.0 * (k as real) * (bands as real);
    DivAtMost(x, (k * 3) as real, z);
    if d == 255 * k * bands {
      DivExact(x, (k * 3) as real, z);
    }
  }

  // ---------------------------------------------------------------------------
  // Identity

  lemma {:induction false} PixelSumSelf(p: Pixel)
    ensures PixelSum(p, p) == 0
    decreases |p|
  {
    if |p| > 0 {
      PixelSumSelf(p[..|p| - 1]);
    }
  }

  lemma {:induction false} GraySumSelf(ps: seq<Pixel>)
    requires Paired(ps, ps, 1)
    ensures GraySum(ps, ps) == 0
    decreases |ps|
  {
    if |ps| > 0 {
      GraySumSelf(ps[..|ps| - 1]);
    }
  }

  lemma {:induction false} ChannelSumSelf(ps: seq<Pixel>)
    requires Aligned(ps, ps)
    ensures ChannelSum(ps, ps) == 0
    decreases |ps|
  {
    if |ps| > 0 {
      ChannelSumSelf(ps[..|ps| - 1]);
      PixelSumSelf(ps[|ps| - 1]);
    }
  }

  /** Comparing an image with itself scores exactly 0. */
  lemma CompareIdentity(a: Image)
    requires WellFormed(a)
    ensures CompareImages(a, a).Success? ==> CompareImages(a, a).value == 0.0
  {
    if a.bands == 1 {
      GraySumSelf(a.data);
    } else {
      ChannelSumSelf(a.data);
    }
  }

  lemma {:induction false} PixelSumZero(p: Pixel, q: Pixel)
    requires |p| == |q| && PixelSum(p, q) == 0
    ensures p == q
    decreases |p|
  {
    var n := |p|;
    if n > 0 {
      PixelSumZero(p[..n - 1], q[..n - 1]);
      assert p == p[..n - 1] + [p[n - 1]] && q == q[..n - 1] + [q[n - 1]];
    }
  }

  lemma {:induction false} GraySumZero(ps: seq<Pixel>, qs: seq<Pixel>)
    requires Paired(ps, qs, 1) && GraySum(ps, qs) == 0
    ensures ps == qs
    decreases |ps|
  {
    var n := |ps|;
    if n > 0 {
      PairedPrefix(ps, qs, 1, n - 1);
      GraySumZero(ps[..n - 1], qs[..n - 1]);
      assert ps[n - 1] == [ps[n - 1][0]] && qs[n - 1] == [qs[n - 1][0]];
      assert ps == ps[..n - 1] + [ps[n - 1]] && qs == qs[..n - 1] + [qs[n - 1]];
    }
  }

  lemma {:induction false} ChannelSumZero(ps: seq<Pixel>, qs: seq<Pixel>)
    requires Aligned(ps, qs) && ChannelSum(ps, qs) == 0
    ensures ps == qs
    decreases |ps|
  {
    var n := |ps|;
    if n > 0 {
      var m := n - 1;
      assert Aligned(ps[..m], qs[..m]) by {
        forall i | 0 <= i < m
          ensures |ps[..m][i]| == |qs[..m][i]|
        {
          assert ps[..m][i] == ps[i] && qs[..m][i] == qs[i];
        }
      }
      ChannelSumZero(ps[..n - 1], qs[..n - 1]);
      PixelSumZero(ps[n - 1], qs[n - 1]);
      assert ps == ps[..n - 1] + [ps[n - 1]] && qs == qs[..n - 1] + [qs[n - 1]];
    }
  }

  /** Conversely, a score of exactly 0 means the two images are pixel-identical. */
  lemma CompareZeroIdentical(a: Image, b: Image)
    requires SameShape(a, b) && CompareImages(a, b) == Success(0.0)
    ensures a == b
  {
    assert TotalDiff(a, b) == 0;
    if a.bands == 1 {
      GraySumZero(a.data, b.data);
    } else {
      ChannelSumZero(a.data, b.data);
    }
  }

  // ---------------------------------------------------------------------------
  // Symmetry

  lemma {:induction false} PixelSumSymmetric(p: Pixel, q: Pixel)
    requires |p| == |q|
    ensures PixelSum(p, q) == PixelSum(q, p)
    decreases |p|
  {
    if |p| > 0 {
      PixelSumSymmetric(p[..|p| - 1], q[..|q| - 1]);
    }
  }

  lemma {:induction false} GraySumSymmetric(ps: seq<Pixel>, qs: seq<Pixel>)
    requires Paired(ps, qs, 1) && Paired(qs, ps, 1)
    ensures GraySum(ps, qs) == GraySum(qs, ps)
    decreases |ps|
  {
    if |ps| > 0 {
      GraySumSymmetric(ps[..|ps| - 1], qs[..|qs| - 1]);
    }
  }

  lemma {:induction false} ChannelSumSymmetric(ps: seq<Pixel>, qs: seq<Pixel>)
    requires Aligned(ps, qs)
    ensures Aligned(qs, ps)
    ensures ChannelSum(ps, qs) == ChannelSum(qs, ps)
    decreases |ps|
  {
    if |ps| > 0 {
      ChannelSumSymmetric(ps[..|ps| - 1], qs[..|qs| - 1]);
      PixelSumSymmetric(ps[|ps| - 1], qs[|qs| - 1]);
    }
  }

  /** The score does not depend on the order of the operands. */
  lemma CompareSymmetric(a: Image, b: Image)
    requires SameShape(a, b)
    ensures SameShape(b, a)
    ensures CompareImages(a, b) == CompareImages(b, a)
  {
    if a.bands == 1 {
      GraySumSymmetric(a.data, b.data);
    } else {
      ChannelSumSymmetric(a.data, b.data);
    }
  }

  // ---------------------------------------------------------------------------
  // Bounds

  /** One more pixel adds `m` to a bound of `m` per pixel. */
  lemma MulStep(m: nat, n: nat)
    ensures m * n + m == m * (n + 1)
  {
  }

  /** Pairing carries over to the first `n` pixel pairs. */
  lemma PairedPrefix(ps: seq<Pixel>, qs: seq<Pixel>, bands: nat, n: nat)
    requires Paired(ps, qs, bands) && n <= |ps|
    ensures Paired(ps[..n], qs[..n], bands)
  {
    forall i | 0 <= i < n
      ensures |ps[..n][i]| == |qs[..n][i]| == bands
    {
      assert ps[..n][i] == ps[i] && qs[..n][i] == qs[i];
    }
  }

  lemma {:induction false} PixelSumBound(p: Pixel, q: Pixel)
    requires |p| == |q|
    ensures PixelSum(p, q) <= 255 * |p|
    decreases |p|
  {
    if |p| > 0 {
      PixelSumBound(p[..|p| - 1], q[..|q| - 1]);
    }
  }

  lemma {:induction false} GraySumBound(ps: seq<Pixel>, qs: seq<Pixel>)
    requires Paired(ps, qs, 1)
    ensures GraySum(ps, qs) <= 255 * |ps|
    decreases |ps|
  {
    if |ps| > 0 {
      GraySumBound(ps[..|ps| - 1], qs[..|qs| - 1]);
    }
  }

  lemma {:induction false} ChannelSumBound(ps: seq<Pixel>, qs: seq<Pixel>, bands: nat)
    requires Paired(ps, qs, bands)
    ensures ChannelSum(ps, qs) <= 255 * bands * |ps|
    decreases |ps|
  {
    if |ps| > 0 {
      var n, m := |ps| - 1, 255 * bands;
      PairedPrefix(ps, qs, bands, n);
      ChannelSumBound(ps[..n], qs[..n], bands);
      PixelSumBound(ps[n], qs[n]);
      assert ChannelSum(ps, qs) == ChannelSum(ps[..n], qs[..n]) + PixelSum(ps[n], qs[n]);
      assert ChannelSum(ps[..n], qs[..n]) <= m * n && PixelSum(ps[n], qs[n]) <= m;
      MulStep(m, n);
    }
  }

  /** `dif` never exceeds 255 per sample: `255 * width * height * bands`. */
  lemma TotalDiffBound(a: Image, b: Image)
    requires SameShape(a, b)
    ensures TotalDiff(a, b) <= 255 * (a.width * a.height) * a.bands
  {
    if a.bands == 1 {
      GraySumBound(a.data, b.data);
    } else {
      ChannelSumBound(a.data, b.data, a.bands);
    }
  }

  /** Because the divisor always counts 3 components per pixel, the score is at most `100 * bands / 3`. */
  lemma CompareBound(a: Image, b: Image)
    requires SameShape(a, b)
    ensures CompareImages(a, b).Success? ==> CompareImages(a, b).value <= (100 * a.bands) as real / 3.0
  {
    if a.width * a.height > 0 {
      TotalDiffBound(a, b);
      NormaliseBound(TotalDiff(a, b), a.width * a.height, a.bands);
    }
  }

  /** A gray image never scores above 100/3. */
  lemma GrayCompareBound(a: Image, b: Image)
    requires SameShape(a, b) && a.bands == 1
    ensures CompareImages(a, b).Success? ==> CompareImages(a, b).value <= 100.0 / 3.0
  {
    CompareBound(a, b);
  }

  /** A three-band image never scores above 100. */
  lemma ColorCompareBound(a: Image, b: Image)
    requires SameShape(a, b) && a.bands == 3
    ensures CompareImages(a, b).Success? ==> CompareImages(a, b).value <= 100.0
  {
    CompareBound(a, b);
  }

  // ---------------------------------------------------------------------------
  // The bound is attained by all-black against all-white

  /** Every sample of every pixel equals `v`. */
  predicate AllSamples(ps: seq<Pixel>, v: Byte)
  {
    forall i, k :: 0 <= i < |ps| && 0 <= k < |ps[i]| ==> ps[i][k] == v
  }

  lemma {:induction false} PixelSumExtreme(p: Pixel, q: Pixel)
    requires |p| == |q|
    requires forall k :: 0 <= k < |p| ==> p[k] == 0 && q[k] == 255
    ensures PixelSum(p, q) == 255 * |p|
    decreases |p|
  {
    if |p| > 0 {
      PixelSumExtreme(p[..|p| - 1], q[..|q| - 1]);
    }
  }

  lemma {:induction false} GraySumExtreme(ps: seq<Pixel>, qs: seq<Pixel>)
    requires Paired(ps, qs, 1)
    requires AllSamples(ps, 0) && AllSamples(qs, 255)
    ensures GraySum(ps, qs) == 255 * |ps|
    decreases |ps|
  {
    if |ps| > 0 {
      var n := |ps| - 1;
      GraySumExtreme(ps[..n], qs[..n]);
      assert ps[n][0] == 0 && qs[n][0] == 255;
    }
  }

  lemma {:induction false} ChannelSumExtreme(ps: seq<Pixel>, qs: seq<Pixel>, bands: nat)
    requires Paired(ps, qs, bands)
    requires AllSamples(ps, 0) && AllSamples(qs, 255)
    ensures ChannelSum(ps, qs) == 255 * bands * |ps|
    decreases |ps|
  {
    if |ps| > 0 {
      var n, m := |ps| - 1, 255 * bands;
      PairedPrefix(ps, qs, bands, n);
      assert AllSamples(ps[..n], 0) && AllSamples(qs[..n], 255) by {
        forall i, k | 0 <= i < n && 0 <= k < |ps[..n][i]|
          ensures ps[..n][i][k] == 0 && qs[..n][i][k] == 255
        {
          assert ps[..n][i] == ps[i] && qs[..n][i] == qs[i];
        }
      }
      ChannelSumExtreme(ps[..n], qs[..n], bands);
      assert forall k :: 0 <= k < |ps[n]| ==> ps[n][k] == 0 && qs[n][k] == 255;
      PixelSumExtreme(ps[n], qs[n]);
      assert ChannelSum(ps, qs) == ChannelSum(ps[..n], qs[..n]) + PixelSum(ps[n], qs[n]);
      assert ChannelSum(ps[..n], qs[..n]) == m * n && PixelSum(ps[n], qs[n]) == m;
      MulStep(m, n);
    }
  }

  /** All-black against all-white reaches the bound `100 * bands / 3` exactly: 100 for three bands, 100/3 for gray. */
  lemma BlackWhiteScore(width: nat, height: nat, bands: nat)
    requires bands >= 1 && width * height > 0
    ensures SameShape(Solid(width, height, bands, 0), Solid(width, height, bands, 255))
    ensures CompareImages(Solid(width, height, bands, 0), Solid(width, height, bands, 255))
         == Success((100 * bands) as real / 3.0)
  {
    var a, b := Solid(width, height, bands, 0), Solid(width, height, bands, 255);
    var k := width * height;
    if bands == 1 {
      GraySumExtreme(a.data, b.data);
    } else {
      ChannelSumExtreme(a.data, b.data, bands);
    }
    assert TotalDiff(a, b) == 255 * k * bands;
    NormaliseBound(TotalDiff(a, b), k, bands);
  }

  // ---------------------------------------------------------------------------
  // Branches

  /**
    On one-sample pixels the gray branch and the multi-band branch add the same
    differences: the branch only follows PIL handing out plain integers for
    one-band images and tuples otherwise.
   */
  lemma {:induction false} GrayBranchAgrees(ps: seq<Pixel>, qs: seq<Pixel>)
    requires Paired(ps, qs, 1)
    ensures GraySum(ps, qs) == ChannelSum(ps, qs)
    decreases |ps|
  {
    if |ps| > 0 {
      var n := |ps| - 1;
      GraySumAgreesStep(ps[n], qs[n]);
      GrayBranchAgrees(ps[..n], qs[..n]);
    }
  }

  lemma GraySumAgreesStep(p: Pixel, q: Pixel)
    requires |p| == 1 && |q| == 1
    ensures PixelSum(p, q) == AbsDiff(p[0], q[0])
  {
    assert p[..0] == [];
  }

  // ---------------------------------------------------------------------------
  // Monotonicity

  /**
    Pair `(us, vs)` differs nowhere more than pair `(ps, qs)`: same layout and,
    sample for sample, a smaller or equal absolute difference.
   */
  predicate Dominates(ps: seq<Pixel>, qs: seq<Pixel>, us: seq<Pixel>, vs: seq<Pixel>)
  {
    && Aligned(ps, qs)
    && Aligned(us, vs)
    && |ps| == |us|
    && (forall i :: 0 <= i < |ps| ==> |ps[i]| == |us[i]|)
    && forall i, k :: 0 <= i < |ps| && 0 <= k < |ps[i]| ==>
         AbsDiff(us[i][k], vs[i][k]) <= AbsDiff(ps[i][k], qs[i][k])
  }

  /** Domination carries over to the first `n` pixel pairs. */
  lemma DominatesPrefix(ps: seq<Pixel>, qs: seq<Pixel>, us: seq<Pixel>, vs: seq<Pixel>, n: nat)
    requires Dominates(ps, qs, us, vs) && n <= |ps|
    ensures Dominates(ps[..n], qs[..n], us[..n], vs[..n])
  {
    var ps', qs', us', vs' := ps[..n], qs[..n], us[..n], vs[..n];
    forall i, k | 0 <= i < |ps'| && 0 <= k < |ps'[i]|
      ensures AbsDiff(us'[i][k], vs'[i][k]) <= AbsDiff(ps'[i][k], qs'[i][k])
    {
      assert ps'[i] == ps[i] && qs'[i] == qs[i] && us'[i] == us[i] && vs'[i] == vs[i];
    }
  }

  lemma {:induction false} PixelSumMonotone(p: Pixel, q: Pixel, u: Pixel, v: Pixel)
    requires |p| == |q| == |u| == |v|
    requires forall k :: 0 <= k < |p| ==> AbsDiff(u[k], v[k]) <= AbsDiff(p[k], q[k])
    ensures PixelSum(u, v) <= PixelSum(p, q)
    decreases |p|
  {
    if |p| > 0 {
      var n := |p| - 1;
      PixelSumMonotone(p[..n], q[..n], u[..n], v[..n]);
    }
  }

  lemma {:induction false} GraySumMonotone(ps: seq<Pixel>, qs: seq<Pixel>, us: seq<Pixel>, vs: seq<Pixel>)
    requires Paired(ps, qs, 1) && Paired(us, vs, 1)
    requires Dominates(ps, qs, us, vs)
    ensures GraySum(us, vs) <= GraySum(ps, qs)
    decreases |ps|
  {
    if |ps| > 0 {
      var n := |ps| - 1;
      DominatesPrefix(ps, qs, us, vs, n);
      GraySumMonotone(ps[..n], qs[..n], us[..n], vs[..n]);
      assert AbsDiff(us[n][0], vs[n][0]) <= AbsDiff(ps[n][0], qs[n][0]);
    }
  }

  lemma {:induction false} ChannelSumMonotone(ps: seq<Pixel>, qs: seq<Pixel>, us: seq<Pixel>, vs: seq<Pixel>)
    requires Dominates(ps, qs, us, vs)
    ensures ChannelSum(us, vs) <= ChannelSum(ps, qs)
    decreases |ps|
  {
    if |ps| > 0 {
      var n := |ps| - 1;
      DominatesPrefix(ps, qs, us, vs, n);
      ChannelSumMonotone(ps[..n], qs[..n], us[..n], vs[..n]);
      PixelSumMonotone(ps[n], qs[n], us[n], vs[n]);
    }
  }

  lemma TotalDiffMonotone(a: Image, b: Image, c: Image, d: Image)
    requires SameShape(a, b) && SameShape(c, d)
    requires a.bands == c.bands
    requires Dominates(a.data, b.data, c.data, d.data)
    ensures TotalDiff(c, d) <= TotalDiff(a, b)
  {
    if a.bands == 1 {
      GraySumMonotone(a.data, b.data, c.data, d.data);
    } else {
      ChannelSumMonotone(a.data, b.data, c.data, d.data);
    }
  }

  /** A pair whose per-sample differences dominate another pair's scores at least as high. */
  lemma CompareMonotone(a: Image, b: Image, c: Image, d: Image)
    requires SameShape(a, b) && SameShape(c, d)
    requires a.width == c.width && a.height == c.height && a.bands == c.bands
    requires Dominates(a.data, b.data, c.data, d.data)
    ensures CompareImages(a, b).Success? <==> CompareImages(c, d).Success?
    ensures CompareImages(a, b).Success? ==> CompareImages(c, d).value <= CompareImages(a, b).value
  {
    var k := a.width * a.height;
    if k > 0 {
      TotalDiffMonotone(a, b, c, d);
      NormaliseMonotone(TotalDiff(c, d), TotalDiff(a, b), k);
    }
  }

  lemma NormaliseMonotone(d: nat, e: nat, k: nat)
    requires k > 0 && d <= e
    ensures Normalise(d, k) <= Normalise(e, k)
  {
    var x, y := d as real / 255.0 * 100.0, e as real / 255.0 * 100.0;
    var den := (k * 3) as real;
    DivMul(y, den);
    DivAtMost(x, den, y / den);
  }

  // ---------------------------------------------------------------------------
  // The summation as the source writes it

  /**
    The generator sums of `compareImages` as loops: one pass over the pixel
    pairs, and for more than one band an inner pass over the channel pairs.
   */
  method SumDifferences(a: Image, b: Image) returns (dif: nat)
    requires SameShape(a, b)
    ensures dif == TotalDiff(a, b)
  {
    if a.bands == 1 {
      dif := SumGray(a.data, b.data);
    } else {
      dif := SumChannels(a.data, b.data);
    }
  }

  /** `sum(abs(p1 - p2) for p1, p2 in pairs)`: one difference per gray pixel. */
  method SumGray(ps: seq<Pixel>, qs: seq<Pixel>) returns (dif: nat)
    requires Paired(ps, qs, 1)
    ensures dif == GraySum(ps, qs)
  {
    dif := 0;
    var i := 0;
    while i < |ps|
      invariant 0 <= i <= |ps|
      invariant dif == GraySum(ps[..i], qs[..i])
    {
      assert ps[..i + 1][..i] == ps[..i] && qs[..i + 1][..i] == qs[..i];
      dif := dif + AbsDiff(ps[i][0], qs[i][0]);
      i := i + 1;
    }
    assert ps[..i] == ps && qs[..i] == qs;
  }

  /** The outer pass of the multi-band sum, over the pixel pairs. */
  method SumChannels(ps: seq<Pixel>, qs: seq<Pixel>) returns (dif: nat)
    requires Aligned(ps, qs)
    ensures dif == ChannelSum(ps, qs)
  {
    dif := 0;
    var i := 0;
    while i < |ps|
      invariant 0 <= i <= |ps|
      invariant dif == ChannelSum(ps[..i], qs[..i])
    {
      var d := SumPixel(ps[i], qs[i]);
      assert ps[..i + 1][..i] == ps[..i] && qs[..i + 1][..i] == qs[..i];
      dif := dif + d;
      i := i + 1;
    }
    assert ps[..i] == ps && qs[..i] == qs;
  }

  /** The inner pass of the multi-band sum, over the channels of one pixel pair. */
  method SumPixel(p: Pixel, q: Pixel) returns (dif: nat)
    requires |p| == |q|
    ensures dif == PixelSum(p, q)
  {
    dif := 0;
    var k := 0;
    while k < |p|
      invariant 0 <= k <= |p|
      invariant dif == PixelSum(p[..k], q[..k])
    {
      assert p[..k + 1][..k] == p[..k] && q[..k + 1][..k] == q[..k];
      dif := dif + AbsDiff(p[k], q[k]);
      k := k + 1;
    }
    assert p[..k] == p && q[..k] == q;
  }
}

=== FILE: imaging.dfy ===
/**
  Raster images as the comparator sees them through PIL's `getdata()`:
  a row-major sequence of pixels, each pixel one 8-bit sample per band.
 */
module Imaging {

  /** One 8-bit sample of one band. */
  type Byte = x: int | 0 <= x <= 255

  /** A pixel: one sample per band of its image. */
  type Pixel = seq<Byte>

  datatype Image = Image(width: nat, height: nat, bands: nat, data: seq<Pixel>)

  /** At least one band, `width * height` pixels, and every pixel carries `bands` samples. */
  predicate WellFormed(img: Image)
  {
    && img.bands >= 1
    && |img.data| == img.width * img.height
    && forall i :: 0 <= i < |img.data| ==> |img.data[i]| == img.bands
  }

  /** Two well-formed images of the same size and band count. */
  predicate SameShape(a: Image, b: Image)
  {
    && WellFormed(a)
    && WellFormed(b)
    && a.width == b.width
    && a.height == b.height
    && a.bands == b.bands
  }

  /** An image whose every sample is `v` (all black for 0, all white for 255). */
  function Solid(width: nat, height: nat, bands: nat, v: Byte): (img: Image)
    requires bands >= 1
    ensures WellFormed(img)
    ensures img.width == width && img.height == height && img.bands == bands
    ensures forall i, k :: 0 <= i < |img.data| && 0 <= k < bands ==> img.data[i][k] == v
  {
    Image(width, height, bands, seq(width * height, _ => seq(bands, _ => v)))
  }
}

=== FILE: processor.dfy ===
/**
  `ImageProcessor` without Qt. Its attributes become an immutable record;
  `config` and `set_cyclic_image` become functions on it; and `process`
  becomes a step machine. Each step is one check of the `exiting` flag and
  consumes one observation of the other thread. The emitted signals
  accumulate in a trace.

  The flag is sticky: once another thread has set `exiting` during a run it
  stays set. Under that reading, checks with no `sleep`, `wait` or emitted
  signal between them are merged into one step, and no trace is lost. A cycle of
  `cycle_time` = n > 0 ticks takes n + 1 countdown steps: `Countdown(n)` is
  the outer `while` together with the first inner `while` test, each of
  `Countdown(n - 1)` .. `Countdown(1)` is the inner test after one `sleep`,
  and `Countdown(0)` is the last inner test together with the `if` after the
  countdown. With n <= 0 the outer `while`, the inner test and that `if` are
  the single step `Countdown(n)`. The `Awaiting` step is the `if` after the
  wait on its own; the outer `while` that follows it is the first step of
  the next `Countdown(cycle_time)`.
 */
module ImageProcessor {
  import opened Wrappers
  import opened Imaging
  import opened Comparator

  /** What `config` stores: the threshold, the number of one-second ticks per cycle, the reference image. */
  datatype Config = Config(threshold: real, cycleTime: int, reference: Image)

  /** The attributes of an `ImageProcessor`; `config.Some?` is its `configured` flag. */
  datatype Processor = Processor(config: Option<Config>, exiting: bool, cyclic: Option<Image>)

  /** The signals `process` emits: `request_image`, `comparison_done(result)`, `finished(thr_exceeded)`. */
  datatype Event = Request | Compared(score: real) | Finished(exceeded: bool)

  /**
    Where `process` stands: counting down with `remaining` ticks left, parked
    until woken after a request, returned after `finished`, or ended by an
    exception (no `finished` is emitted then).
   */
  datatype Phase = Countdown(remaining: int) | Awaiting | Done(exceeded: bool) | Aborted

  /** One execution of `process` on a processor, with the signals emitted so far. */
  datatype Run = Run(proc: Processor, phase: Phase, trace: seq<Event>)

  /**
    What the other threads did since the previous check: whether they set
    `exiting`, and the image they passed to `set_cyclic_image`, if any. In
    `Awaiting` an input also stands for the wake, whether by `wakeOne` or by
    the timeout.
   */
  datatype Input = Input(stop: bool, image: Option<Image>)

  predicate Live(phase: Phase)
  {
    phase.Countdown? || phase.Awaiting?
  }

  // ---------------------------------------------------------------------------
  // The attributes and their setters

  /** `__init__`: not configured, not exiting, no cyclic image. */
  function Init(): Processor
  {
    Processor(None, false, None)
  }

  /** `config`: stores the three settings and marks the processor configured. */
  function Configure(p: Processor, threshold: real, cycleTime: int, reference: Image): (q: Processor)
    ensures q.config.Some?
    ensures q.config.value.threshold == threshold && q.config.value.cycleTime == cycleTime
    ensures q.config.value.reference == reference
    ensures q.exiting == p.exiting && q.cyclic == p.cyclic
  {
    p.(config := Some(Config(threshold, cycleTime, reference)))
  }

  /** `set_cyclic_image`: stores the image whatever `process` is doing. */
  function SetCyclicImage(p: Processor, img: Image): Processor
  {
    p.(cyclic := Some(img))
  }

  /** What the other threads do between two checks. */
  function Observe(p: Processor, i: Input): Processor
  {
    var q := if i.stop then p.(exiting := true) else p;
    if i.image.Some? then SetCyclicImage(q, i.image.value) else q
  }

  // ---------------------------------------------------------------------------
  // Shapes: the comparison is only defined on images of the reference's shape

  /** `img` has the shape of the configured reference (any image does before `config`). */
  predicate Fits(p: Processor, img: Image)
  {
    p.config.Some? ==> SameShape(p.config.value.reference, img)
  }

  /** The stored cyclic image, if any, fits the reference. */
  predicate Consistent(p: Processor)
  {
    p.cyclic.Some? ==> Fits(p, p.cyclic.value)
  }

  predicate InputFits(p: Processor, i: Input)
  {
    i.image.Some? ==> Fits(p, i.image.value)
  }

  predicate AllFit(p: Processor, inputs: seq<Input>)
  {
    forall j :: 0 <= j < |inputs| ==> InputFits(p, inputs[j])
  }

  /** A run that can still compare has a configuration to compare against. */
  predicate Valid(r: Run)
  {
    && Consistent(r.proc)
    && (Live(r.phase) ==> r.proc.config.Some?)
  }

  // ---------------------------------------------------------------------------
  // process

  /** Entering `process`: without `config` it emits `finished(False)` at once; otherwise a full countdown starts. */
  function Start(p: Processor): (r: Run)
    requires Consistent(p)
    ensures Valid(r) && r.proc == p
    ensures Live(r.phase) <==> p.config.Some?
    ensures p.config.Some? ==> r.phase == Countdown(p.config.value.cycleTime) && r.trace == []
    ensures p.config.None? ==> r.phase == Done(false) && r.trace == [Finished(false)]
  {
    if p.config.None? then Run(p, Done(false), [Finished(false)])
    else Run(p, Countdown(p.config.value.cycleTime), [])
  }

  /**
    One check of `exiting`, after the other threads acted as `i` says.

    Countdown: the flag ends the run with `finished(False)`; otherwise a
    positive count sleeps one tick, and an exhausted one emits
    `request_image` and parks. Awaiting: on waking, the flag ends the run
    likewise; otherwise the reference is compared with whatever image is
    stored now. The result is emitted and either ends the run with
    `finished(True)` or starts the next countdown. Comparing with no stored
    image, or with an image without pixels, raises, and the run aborts
    without `finished`.
   */
  function Step(r: Run, i: Input): (r': Run)
    requires Valid(r) && InputFits(r.proc, i)
    ensures Valid(r')
    ensures r'.proc == Observe(r.proc, i)
    ensures r.trace <= r'.trace
    ensures !Live(r.phase) ==> r'.phase == r.phase && r'.trace == r.trace
  {
    var p := Observe(r.proc, i);
    match r.phase
    case Done(_) => r.(proc := p)
    case Aborted => r.(proc := p)
    case Countdown(n) =>
      if p.exiting then Run(p, Done(false), r.trace + [Finished(false)])
      else if n > 0 then Run(p, Countdown(n - 1), r.trace)
      else Run(p, Awaiting, r.trace + [Request])
    case Awaiting =>
      if p.exiting then Run(p, Done(false), r.trace + [Finished(false)])
      else if p.cyclic.None? then Run(p, Aborted, r.trace)
      else
        var cfg := p.config.value;
        match CompareImages(cfg.reference, p.cyclic.value)
        case Failure(_) => Run(p, Aborted, r.trace)
        case Success(score) =>
          if score > cfg.threshold then Run(p, Done(true), r.trace + [Compared(score), Finished(true)])
          else Run(p, Countdown(cfg.cycleTime), r.trace + [Compared(score)])
  }

  /** The run after the checks that observe `inputs`, in order. */
  function Exec(r: Run, inputs: seq<Input>): (r': Run)
    requires Valid(r) && AllFit(r.proc, inputs)
    ensures Valid(r')
    ensures r'.proc.config == r.proc.config
    ensures r.trace <= r'.trace
    decreases |inputs|
  {
    if |inputs| == 0 then r
    else Exec(Step(r, inputs[0]), inputs[1..])
  }
}

=== FILE: processor_loop.dfy ===
/**
  `ImageProcessor.process` with its loops, as the source writes it. Each
  check of `exiting` first takes the next observation of the other threads.
  The method returns when `process` returns or raises, or when the
  observations run out. In every case its signals and its phase are those
  of the step machine.
 */
module ProcessorLoop {
  import opened Wrappers
  import opened Imaging
  import opened Comparator
  import opened ImageProcessor
  import opened ProcessorTraces

  /** Taking observation `k` is one step of the machine. */
  lemma Advance(p: Processor, inputs: seq<Input>, k: nat)
    requires Consistent(p) && AllFit(p, inputs) && k < |inputs|
    ensures AllFit(p, inputs[..k]) && AllFit(p, inputs[..k + 1])
    ensures InputFits(RunProcess(p, inputs[..k]).proc, inputs[k])
    ensures RunProcess(p, inputs[..k + 1]) == Step(RunProcess(p, inputs[..k]), inputs[k])
  {
    assert inputs[..k + 1] == inputs[..k] + [inputs[k]];
    ExecSnoc(Start(p), inputs[..k], inputs[k]);
  }

  method Process(p: Processor, inputs: seq<Input>) returns (trace: seq<Event>, phase: Phase, used: nat)
    requires Consistent(p) && AllFit(p, inputs)
    ensures used <= |inputs| && AllFit(p, inputs[..used])
    ensures trace == RunProcess(p, inputs[..used]).trace
    ensures phase == RunProcess(p, inputs[..used]).phase
    ensures Live(phase) ==> used == |inputs|
  {
    used := 0;
    trace := [];
    var proc := p;
    assert inputs[..0] == [];
    if proc.config.None? {
      // not configured: straight to `finished(False)`
      trace := [Finished(false)];
      phase := Done(false);
      return;
    }
    var cfg := proc.config.value;
    // `while not self.exiting`
    while true
      invariant used <= |inputs| && AllFit(p, inputs[..used])
      invariant RunProcess(p, inputs[..used]) == Run(proc, Countdown(cfg.cycleTime), trace)
      decreases |inputs| - used
    {
      var countdown := cfg.cycleTime;
      // `while not self.exiting and countdown > 0`, then `if self.exiting: break`:
      // one check per iteration; the first also stands for the outer `while`
      // test, the last for the `if` after the countdown
      while true
        invariant used <= |inputs| && AllFit(p, inputs[..used])
        invariant RunProcess(p, inputs[..used]) == Run(proc, Countdown(countdown), trace)
        decreases |inputs| - used
      {
        if used == |inputs| {
          phase := Countdown(countdown);
          return;
        }
        Advance(p, inputs, used);
        proc := Observe(proc, inputs[used]);
        used := used + 1;
        if proc.exiting {
          trace := trace + [Finished(false)];
          phase := Done(false);
          return;
        }
        if countdown <= 0 {
          assert RunProcess(p, inputs[..used]) == Run(proc, Awaiting, trace + [Request]);
          break;
        }
        // `time.sleep(1)`
        countdown := countdown - 1;
      }
      trace := trace + [Request];
      // `self.waitCondition.wait(...)`: the next observation is the wake
      if used == |inputs| {
        phase := Awaiting;
        return;
      }
      Advance(p, inputs, used);
      ghost var parked := Run(proc, Awaiting, trace);
      proc := Observe(proc, inputs[used]);
      used := used + 1;
      assert RunProcess(p, inputs[..used]) == Step(parked, inputs[used - 1]);
      if proc.exiting {
        trace := trace + [Finished(false)];
        phase := Done(false);
        return;
      }
      if proc.cyclic.None? {
        phase := Aborted;
        return;
      }
      var result := CompareImages(cfg.reference, proc.cyclic.value);
      if result.Failure? {
        phase := Aborted;
        return;
      }
      trace := trace + [Compared(result.value)];
      if result.value > cfg.threshold {
        trace := trace + [Finished(true)];
        phase := Done(true);
        return;
      }
    }
  }
}

=== FILE: processor_traces.dfy ===
/**
  Properties of the signals `process` emits, for every processor and every
  finite sequence of observations of the other threads.
 */
module ProcessorTraces {
  import opened Wrappers
  import opened Imaging
  import opened Comparator
  import opened ImageProcessor

  /** `process` started on `p` after the checks that observed `inputs`. */
  function RunProcess(p: Processor, inputs: seq<Input>): Run
    requires Consistent(p) && AllFit(p, inputs)
  {
    Exec(Start(p), inputs)
  }

  // ---------------------------------------------------------------------------
  // Composing executions

  lemma {:induction false} ExecAppend(r: Run, xs: seq<Input>, ys: seq<Input>)
    requires Valid(r) && AllFit(r.proc, xs + ys)
    ensures AllFit(r.proc, xs) && AllFit(Exec(r, xs).proc, ys)
    ensures Exec(r, xs + ys) == Exec(Exec(r, xs), ys)
    decreases |xs|
  {
    assert forall j :: 0 <= j < |xs| ==> (xs + ys)[j] == xs[j];
    assert forall j :: 0 <= j < |ys| ==> (xs + ys)[|xs| + j] == ys[j];
    if |xs| > 0 {
      var r' := Step(r, xs[0]);
      assert (xs + ys)[0] == xs[0];
      assert (xs + ys)[1..] == xs[1..] + ys;
      ExecAppend(r', xs[1..], ys);
      assert Exec(r, xs + ys) == Exec(r', xs[1..] + ys);
      assert Exec(r, xs) == Exec(r', xs[1..]);
    } else {
      assert xs + ys == ys;
    }
  }

  /** Observing one more input is one more step. */
  lemma ExecSnoc(r: Run, xs: seq<Input>, i: Input)
    requires Valid(r) && AllFit(r.proc, xs + [i])
    ensures AllFit(r.proc, xs) && InputFits(Exec(r, xs).proc, i)
    ensures Exec(r, xs + [i]) == Step(Exec(r, xs), i)
  {
    ExecAppend(r, xs, [i]);
    assert [i][1..] == [];
  }

  /** A run that has returned or aborted ignores every later observation. */
  lemma {:induction false} ExecEnded(r: Run, inputs: seq<Input>)
    requires Valid(r) && AllFit(r.proc, inputs) && !Live(r.phase)
    ensures Exec(r, inputs).phase == r.phase && Exec(r, inputs).trace == r.trace
    decreases |inputs|
  {
    if |inputs| > 0 {
      ExecEnded(Step(r, inputs[0]), inputs[1..]);
    }
  }

  // ---------------------------------------------------------------------------
  // The shape of the trace

  /** Completed cycles: `request_image` then a result at or below `t`, pair after pair. */
  predicate Alternating(t: real, tr: seq<Event>)
  {
    && |tr| % 2 == 0
    && forall j :: 0 <= j < |tr| ==>
         if j % 2 == 0 then tr[j] == Request else tr[j].Compared? && tr[j].score <= t
  }

  /**
    The events of the cycle in progress, or of the last cycle once the run has
    ended: nothing yet while counting down, the request while parked, and the
    request, any result and `finished` at the end.
   */
  function Pending(r: Run): seq<Event>
  {
    var tr, n := r.trace, |r.trace|;
    match r.phase
    case Countdown(_) => []
    case Awaiting => [Request]
    case Aborted => [Request]
    case Done(exceeded) =>
      if exceeded then (if n >= 2 then [Request, tr[n - 2], Finished(true)] else [])
      else if n >= 2 && tr[n - 2] == Request then [Request, Finished(false)]
      else [Finished(false)]
  }

  /**
    The trace so far: completed cycles followed by the pending events; a final
    result is above the threshold exactly when the run returned
    `finished(True)`; a countdown never has more than `cycle_time` ticks left.
   */
  predicate Shaped(r: Run)
  {
    var tr, tail := r.trace, Pending(r);
    match r.proc.config
    case None => r.phase == Done(false) && tr == [Finished(false)]
    case Some(cfg) =>
      && |tail| <= |tr|
      && tr[|tr| - |tail|..] == tail
      && Alternating(cfg.threshold, tr[..|tr| - |tail|])
      && (r.phase == Done(true) ==> |tail| == 3 && tail[1].Compared? && tail[1].score > cfg.threshold)
      && (r.phase.Countdown? ==>
            r.phase.remaining <= cfg.cycleTime && (r.phase.remaining >= 0 || r.phase.remaining == cfg.cycleTime))
  }

  /** The completed cycles of a shaped run. */
  function Completed(r: Run): seq<Event>
    requires Shaped(r) && r.proc.config.Some?
  {
    r.trace[..|r.trace| - |Pending(r)|]
  }

  lemma Decompose(r: Run)
    requires Shaped(r) && r.proc.config.Some?
    ensures r.trace == Completed(r) + Pending(r)
    ensures Alternating(r.proc.config.value.threshold, Completed(r))
  {
    assert r.trace == r.trace[..|r.trace| - |Pending(r)|] + r.trace[|r.trace| - |Pending(r)|..];
  }

  lemma AlternatingExtend(t: real, tr: seq<Event>, score: real)
    requires Alternating(t, tr) && score <= t
    ensures Alternating(t, tr + [Request, Compared(score)])
  {
    var tr' := tr + [Request, Compared(score)];
    forall j | 0 <= j < |tr'|
      ensures if j % 2 == 0 then tr'[j] == Request else tr'[j].Compared? && tr'[j].score <= t
    {
      if j < |tr| {
        assert tr'[j] == tr[j];
      }
    }
  }

  /** An alternating trace never ends in a request. */
  lemma AlternatingEnd(t: real, tr: seq<Event>)
    requires Alternating(t, tr)
    ensures |tr| > 0 ==> tr[|tr| - 1] != Request
  {
  }

  /** What the completed cycles and the pending events contribute, index by index. */
  lemma ConcatFacts(t: real, done: seq<Event>, tail: seq<Event>)
    requires Alternating(t, done)
    ensures forall j :: 0 <= j < |done| ==> !(done + tail)[j].Finished?
    ensures forall j :: 0 <= j < |done| && (done + tail)[j].Compared? ==>
      (done + tail)[j].score <= t && j > 0 && (done + tail)[j - 1] == Request
    ensures forall j :: |done| <= j < |done + tail| ==> (done + tail)[j] == tail[j - |done|]
  {
    forall j | 0 <= j < |done| && (done + tail)[j].Compared?
      ensures j > 0 && (done + tail)[j - 1] == Request
    {
      assert j % 2 == 1;
      assert (done + tail)[j - 1] == done[j - 1];
    }
  }

  /** The pending events of each phase, written out. */
  lemma PendingShape(r: Run)
    requires Shaped(r) && r.proc.config.Some?
    ensures r.phase.Countdown? ==> Pending(r) == []
    ensures r.phase.Awaiting? || r.phase.Aborted? ==> Pending(r) == [Request]
    ensures r.phase == Done(false) ==> Pending(r) == [Finished(false)] || Pending(r) == [Request, Finished(false)]
    ensures r.phase == Done(true) ==>
      && Pending(r) == [Request, Pending(r)[1], Finished(true)]
      && Pending(r)[1].Compared? && Pending(r)[1].score > r.proc.config.value.threshold
  {
  }

  /** Among the pending events `finished` can only come last, and only once the run has returned. */
  lemma PendingFinished(r: Run)
    requires Shaped(r) && r.proc.config.Some?
    ensures var tail := Pending(r);
      forall j :: 0 <= j < |tail| && tail[j].Finished? ==> j == |tail| - 1 && r.phase.Done?
  {
    PendingShape(r);
    match r.phase
    case Countdown(_) =>
    case Awaiting =>
    case Aborted =>
    case Done(exceeded) =>
      if !exceeded && Pending(r) != [Finished(false)] {
        assert Pending(r) == [Request, Finished(false)];
      }
  }

  /** A returned run's pending events end with its `finished`. */
  lemma PendingLast(r: Run)
    requires Shaped(r) && r.proc.config.Some?
    ensures r.phase.Done? ==> |Pending(r)| > 0 && Pending(r)[|Pending(r)| - 1] == Finished(r.phase.exceeded)
  {
    PendingShape(r);
  }

  /** The only pending result is the breach between the request and `finished(True)`. */
  lemma PendingCompared(r: Run)
    requires Shaped(r) && r.proc.config.Some?
    ensures var tail := Pending(r);
      forall j :: 0 <= j < |tail| && tail[j].Compared? ==>
        j == 1 && tail[0] == Request && |tail| == 3 && r.phase == Done(true)
        && tail[1].score > r.proc.config.value.threshold
  {
    PendingShape(r);
    match r.phase
    case Countdown(_) =>
    case Awaiting =>
    case Aborted =>
    case Done(exceeded) =>
      if !exceeded && Pending(r) != [Finished(false)] {
        assert Pending(r) == [Request, Finished(false)];
      }
  }

  /** In a shaped run `finished` can only be the last event, and is there once the run has returned. */
  lemma FinishedFacts(r: Run)
    requires Shaped(r) && r.proc.config.Some?
    ensures forall j :: 0 <= j < |r.trace| && r.trace[j].Finished? ==> j == |r.trace| - 1 && r.phase.Done?
    ensures r.phase.Done? ==> |r.trace| > 0 && r.trace[|r.trace| - 1] == Finished(r.phase.exceeded)
  {
    var tr, done, tail := r.trace, Completed(r), Pending(r);
    Decompose(r);
    ConcatFacts(r.proc.config.value.threshold, done, tail);
    PendingFinished(r);
    PendingLast(r);
    forall j | 0 <= j < |tr| && tr[j].Finished?
      ensures j == |tr| - 1 && r.phase.Done?
    {
      assert j >= |done|;
      assert tail[j - |done|].Finished?;
    }
  }

  /** In a shaped run every result directly follows a request. */
  lemma ComparedFacts(r: Run)
    requires Shaped(r) && r.proc.config.Some?
    ensures forall j :: 0 <= j < |r.trace| && r.trace[j].Compared? ==> j > 0 && r.trace[j - 1] == Request
  {
    var tr, done, tail := r.trace, Completed(r), Pending(r);
    Decompose(r);
    forall j | 0 <= j < |tr| && tr[j].Compared?
      ensures j > 0 && tr[j - 1] == Request
    {
      if j < |done| {
        assert tr[j] == done[j];
        assert j % 2 == 1;
        assert tr[j - 1] == done[j - 1];
      } else {
        PendingCompared(r);
        assert tr[j] == tail[j - |done|];
        assert j - |done| == 1 && tail[0] == Request;
        assert tr[j - 1] == tail[0];
      }
    }
  }

  /** In a shaped run a result above the threshold is followed by `finished(True)` only. */
  lemma BreachFacts(r: Run)
    requires Shaped(r) && r.proc.config.Some?
    ensures forall j :: 0 <= j < |r.trace| && r.trace[j].Compared? && r.trace[j].score > r.proc.config.value.threshold ==>
      j == |r.trace| - 2 && r.trace[j + 1] == Finished(true) && r.phase == Done(true)
  {
    var tr, t, done, tail := r.trace, r.proc.config.value.threshold, Completed(r), Pending(r);
    Decompose(r);
    ConcatFacts(t, done, tail);
    PendingCompared(r);
    forall j | 0 <= j < |tr| && tr[j].Compared? && tr[j].score > t
      ensures j == |tr| - 2 && tr[j + 1] == Finished(true) && r.phase == Done(true)
    {
      assert j >= |done|;
      assert tail[j - |done|].Compared?;
      assert tr[j + 1] == tail[2];
    }
  }

  lemma ShapedIntro(r: Run, done: seq<Event>)
    requires r.proc.config.Some?
    requires r.trace == done + Pending(r)
    requires Alternating(r.proc.config.value.threshold, done)
    requires r.phase == Done(true) ==>
      |Pending(r)| == 3 && Pending(r)[1].Compared? && Pending(r)[1].score > r.proc.config.value.threshold
    requires r.phase.Countdown? ==>
      && r.phase.remaining <= r.proc.config.value.cycleTime
      && (r.phase.remaining >= 0 || r.phase.remaining == r.proc.config.value.cycleTime)
    ensures Shaped(r)
  {
    assert r.trace[..|r.trace| - |Pending(r)|] == done;
    assert r.trace[|r.trace| - |Pending(r)|..] == Pending(r);
  }

  /** A countdown check that sees `exiting` returns `finished(False)` after the completed cycles. */
  lemma CountdownStopShaped(r: Run, r': Run)
    requires Shaped(r) && r.proc.config.Some? && r.phase.Countdown?
    requires r'.proc.config == r.proc.config && r'.phase == Done(false) && r'.trace == r.trace + [Finished(false)]
    ensures Shaped(r')
  {
    Decompose(r);
    var done := Completed(r);
    assert r.trace == done;
    AlternatingEnd(r.proc.config.value.threshold, done);
    assert |done| > 0 ==> r'.trace[|r'.trace| - 2] == done[|done| - 1];
    assert Pending(r') == [Finished(false)];
    ShapedIntro(r', done);
  }

  /** A countdown check that ticks keeps the completed cycles. */
  lemma CountdownTickShaped(r: Run, r': Run)
    requires Shaped(r) && r.proc.config.Some? && r.phase.Countdown? && r.phase.remaining > 0
    requires r'.proc.config == r.proc.config && r'.phase == Countdown(r.phase.remaining - 1) && r'.trace == r.trace
    ensures Shaped(r')
  {
    Decompose(r);
    var done := Completed(r);
    assert r.trace == done;
    ShapedIntro(r', done);
  }

  /** A countdown check that requests an image parks after the completed cycles. */
  lemma CountdownRequestShaped(r: Run, r': Run)
    requires Shaped(r) && r.proc.config.Some? && r.phase.Countdown?
    requires r'.proc.config == r.proc.config && r'.phase == Awaiting && r'.trace == r.trace + [Request]
    ensures Shaped(r')
  {
    Decompose(r);
    var done := Completed(r);
    assert r.trace == done;
    ShapedIntro(r', done);
  }

  lemma StepShapedCountdown(r: Run, i: Input)
    requires Valid(r) && InputFits(r.proc, i) && Shaped(r)
    requires r.proc.config.Some? && r.phase.Countdown?
    ensures Shaped(Step(r, i))
  {
    var p, n := Observe(r.proc, i), r.phase.remaining;
    if p.exiting {
      CountdownStopShaped(r, Step(r, i));
    } else if n > 0 {
      CountdownTickShaped(r, Step(r, i));
    } else {
      CountdownRequestShaped(r, Step(r, i));
    }
  }

  /** A wake that sees `exiting` returns `finished(False)` after the request. */
  lemma AwaitStopShaped(r: Run, r': Run)
    requires Shaped(r) && r.proc.config.Some? && r.phase.Awaiting?
    requires r'.proc.config == r.proc.config && r'.phase == Done(false) && r'.trace == r.trace + [Finished(false)]
    ensures Shaped(r')
  {
    Decompose(r);
    var done := Completed(r);
    assert r.trace == done + [Request];
    assert r'.trace == done + [Request, Finished(false)];
    assert r'.trace[|r'.trace| - 2] == Request;
    assert Pending(r') == [Request, Finished(false)];
    ShapedIntro(r', done);
  }

  /** A comparison above the threshold ends the cycle with `finished(True)`. */
  lemma AwaitBreachShaped(r: Run, r': Run, score: real)
    requires Shaped(r) && r.proc.config.Some? && r.phase.Awaiting? && score > r.proc.config.value.threshold
    requires r'.proc.config == r.proc.config && r'.phase == Done(true)
    requires r'.trace == r.trace + [Compared(score), Finished(true)]
    ensures Shaped(r')
  {
    Decompose(r);
    var done := Completed(r);
    assert r.trace == done + [Request];
    assert r'.trace == done + [Request, Compared(score), Finished(true)];
    assert r'.trace[|r'.trace| - 2] == Compared(score);
    assert Pending(r') == [Request, Compared(score), Finished(true)];
    ShapedIntro(r', done);
  }

  /** A comparison at or below the threshold completes the cycle and starts a countdown. */
  lemma AwaitPassShaped(r: Run, r': Run, score: real)
    requires Shaped(r) && r.proc.config.Some? && r.phase.Awaiting? && score <= r.proc.config.value.threshold
    requires r'.proc.config == r.proc.config && r'.phase == Countdown(r.proc.config.value.cycleTime)
    requires r'.trace == r.trace + [Compared(score)]
    ensures Shaped(r')
  {
    Decompose(r);
    var done := Completed(r);
    assert r.trace == done + [Request];
    assert r'.trace == done + [Request, Compared(score)];
    AlternatingExtend(r.proc.config.value.threshold, done, score);
    ShapedIntro(r', done + [Request, Compared(score)]);
  }

  /** An exception leaves the request pending. */
  lemma AwaitAbortShaped(r: Run, r': Run)
    requires Shaped(r) && r.proc.config.Some? && r.phase.Awaiting?
    requires r'.proc.config == r.proc.config && r'.phase == Aborted && r'.trace == r.trace
    ensures Shaped(r')
  {
    Decompose(r);
    ShapedIntro(r', Completed(r));
  }

  lemma StepShapedAwaiting(r: Run, i: Input)
    requires Valid(r) && InputFits(r.proc, i) && Shaped(r)
    requires r.proc.config.Some? && r.phase.Awaiting?
    ensures Shaped(Step(r, i))
  {
    var p, cfg := Observe(r.proc, i), r.proc.config.value;
    if p.exiting {
      AwaitStopShaped(r, Step(r, i));
    } else if p.cyclic.None? {
      AwaitAbortShaped(r, Step(r, i));
    } else {
      match CompareImages(cfg.reference, p.cyclic.value)
      case Failure(_) =>
        AwaitAbortShaped(r, Step(r, i));
      case Success(score) =>
        if score > cfg.threshold {
          AwaitBreachShaped(r, Step(r, i), score);
        } else {
          AwaitPassShaped(r, Step(r, i), score);
        }
    }
  }

  lemma StepShaped(r: Run, i: Input)
    requires Valid(r) && InputFits(r.proc, i) && Shaped(r)
    ensures Shaped(Step(r, i))
  {
    if r.proc.config.Some? && r.phase.Countdown? {
      StepShapedCountdown(r, i);
    } else if r.proc.config.Some? && r.phase.Awaiting? {
      StepShapedAwaiting(r, i);
    } else {
      ShapedSameView(r, Step(r, i));
    }
  }

  /** Shape only depends on the configuration, the phase and the trace. */
  lemma ShapedSameView(r: Run, r': Run)
    requires Shaped(r)
    requires r'.proc.config == r.proc.config && r'.phase == r.phase && r'.trace == r.trace
    ensures Shaped(r')
  {
    assert Pending(r') == Pending(r) by {
      assert r'.phase == r.phase && r'.trace == r.trace;
    }
    if r.proc.config.Some? {
      Decompose(r);
      ShapedIntro(r', Completed(r));
    }
  }

  lemma {:induction false} ExecShaped(r: Run, inputs: seq<Input>)
    requires Valid(r) && AllFit(r.proc, inputs) && Shaped(r)
    ensures Shaped(Exec(r, inputs))
    decreases |inputs|
  {
    if |inputs| > 0 {
      StepShaped(r, inputs[0]);
      ExecShaped(Step(r, inputs[0]), inputs[1..]);
    }
  }

  /** Every run of `process` keeps its trace in shape. */
  lemma RunShaped(p: Processor, inputs: seq<Input>)
    requires Consistent(p) && AllFit(p, inputs)
    ensures Shaped(RunProcess(p, inputs))
  {
    ExecShaped(Start(p), inputs);
  }

  // ---------------------------------------------------------------------------
  // finished

  /** Without `config`, `process` emits `finished(False)` and nothing else, whatever happens. */
  lemma UnconfiguredRun(p: Processor, inputs: seq<Input>)
    requires Consistent(p) && AllFit(p, inputs) && p.config.None?
    ensures RunProcess(p, inputs).phase == Done(false)
    ensures RunProcess(p, inputs).trace == [Finished(false)]
  {
    ExecEnded(Start(p), inputs);
  }

  /** A processor fresh from `__init__` was never configured: it only ever emits `finished(False)`. */
  lemma FreshProcessorRun(inputs: seq<Input>)
    ensures AllFit(Init(), inputs)
    ensures RunProcess(Init(), inputs).trace == [Finished(false)]
  {
    UnconfiguredRun(Init(), inputs);
  }

  /**
    `finished` is emitted at most once, and then as the last signal; it has
    been emitted exactly when the run has returned, and carries its verdict.
   */
  lemma FinishedOnceAndLast(p: Processor, inputs: seq<Input>)
    requires Consistent(p) && AllFit(p, inputs)
    ensures var r := RunProcess(p, inputs);
      && (forall j :: 0 <= j < |r.trace| && r.trace[j].Finished? ==> j == |r.trace| - 1)
      && (r.phase.Done? <==> (|r.trace| > 0 && r.trace[|r.trace| - 1].Finished?))
      && (r.phase.Done? ==> r.trace[|r.trace| - 1] == Finished(r.phase.exceeded))
  {
    var r := RunProcess(p, inputs);
    RunShaped(p, inputs);
    if r.proc.config.Some? {
      FinishedFacts(r);
    }
  }

  // ---------------------------------------------------------------------------
  // Verdict and comparisons

  /** The last `comparison_done` value in a trace, if any. */
  function LastScore(tr: seq<Event>): Option<real>
    decreases |tr|
  {
    if |tr| == 0 then None
    else if tr[|tr| - 1].Compared? then Some(tr[|tr| - 1].score)
    else LastScore(tr[..|tr| - 1])
  }

  lemma {:induction false} LastScoreAtMost(t: real, tr: seq<Event>)
    requires forall j :: 0 <= j < |tr| && tr[j].Compared? ==> tr[j].score <= t
    ensures LastScore(tr).Some? ==> LastScore(tr).value <= t
    decreases |tr|
  {
    if |tr| > 0 && !tr[|tr| - 1].Compared? {
      var front := tr[..|tr| - 1];
      assert forall j :: 0 <= j < |front| ==> front[j] == tr[j];
      LastScoreAtMost(t, front);
    }
  }

  /** Appending events without a result leaves the last result unchanged. */
  lemma {:induction false} LastScoreSkips(tr: seq<Event>, tail: seq<Event>)
    requires forall j :: 0 <= j < |tail| ==> !tail[j].Compared?
    ensures LastScore(tr + tail) == LastScore(tr)
    decreases |tail|
  {
    if |tail| > 0 {
      var n := |tail| - 1;
      assert (tr + tail)[..|tr + tail| - 1] == tr + tail[..n];
      assert (tr + tail)[|tr + tail| - 1] == tail[n];
      LastScoreSkips(tr, tail[..n]);
    } else {
      assert tr + tail == tr;
    }
  }

  /**
    The run returns `finished(True)` exactly when the last result exceeded the
    threshold stored by `config`; a returned run with `finished(False)` never
    saw a result above it.
   */
  lemma VerdictMatchesLastScore(p: Processor, inputs: seq<Input>)
    requires Consistent(p) && AllFit(p, inputs) && p.config.Some?
    ensures var r := RunProcess(p, inputs);
      r.phase.Done? ==>
        (r.phase.exceeded <==> LastScore(r.trace).Some? && LastScore(r.trace).value > p.config.value.threshold)
  {
    var r := RunProcess(p, inputs);
    RunShaped(p, inputs);
    Decompose(r);
    var t, done, tail := p.config.value.threshold, Completed(r), Pending(r);
    if r.phase == Done(true) {
      var s := tail[1];
      assert r.trace == (done + [Request, s]) + [Finished(true)];
      LastScoreSkips(done + [Request, s], [Finished(true)]);
    } else if r.phase == Done(false) {
      LastScoreSkips(done, tail);
      LastScoreAtMost(t, done);
    }
  }

  /**
    A result above the threshold is the last result of the run: it is
    followed by `finished(True)` and nothing else, so no further
    `request_image`. Every other result is at or below the threshold.
   */
  lemma BreachEndsRun(p: Processor, inputs: seq<Input>)
    requires Consistent(p) && AllFit(p, inputs) && p.config.Some?
    ensures var r := RunProcess(p, inputs);
      forall j :: 0 <= j < |r.trace| && r.trace[j].Compared? && r.trace[j].score > p.config.value.threshold ==>
        && j == |r.trace| - 2
        && r.trace[j + 1] == Finished(true)
        && r.phase == Done(true)
  {
    RunShaped(p, inputs);
    BreachFacts(RunProcess(p, inputs));
  }

  // ---------------------------------------------------------------------------
  // Requests and comparisons

  function Requests(tr: seq<Event>): nat
    decreases |tr|
  {
    if |tr| == 0 then 0
    else Requests(tr[..|tr| - 1]) + (if tr[|tr| - 1] == Request then 1 else 0)
  }

  function Comparisons(tr: seq<Event>): nat
    decreases |tr|
  {
    if |tr| == 0 then 0
    else Comparisons(tr[..|tr| - 1]) + (if tr[|tr| - 1].Compared? then 1 else 0)
  }

  lemma {:induction false} CountsAppend(tr: seq<Event>, tail: seq<Event>)
    ensures Requests(tr + tail) == Requests(tr) + Requests(tail)
    ensures Comparisons(tr + tail) == Comparisons(tr) + Comparisons(tail)
    decreases |tail|
  {
    if |tail| > 0 {
      var n := |tail| - 1;
      assert (tr + tail)[..|tr + tail| - 1] == tr + tail[..n];
      assert (tr + tail)[|tr + tail| - 1] == tail[n];
      CountsAppend(tr, tail[..n]);
    } else {
      assert tr + tail == tr;
    }
  }

  lemma CountsSingle(e: Event)
    ensures Requests([e]) == if e == Request then 1 else 0
    ensures Comparisons([e]) == if e.Compared? then 1 else 0
  {
    assert [e][..0] == [];
  }

  /** Dropping the last completed cycle leaves completed cycles. */
  lemma AlternatingDrop(t: real, tr: seq<Event>)
    requires Alternating(t, tr) && |tr| > 0
    ensures |tr| >= 2 && Alternating(t, tr[..|tr| - 2])
  {
    var front := tr[..|tr| - 2];
    forall j | 0 <= j < |front|
      ensures if j % 2 == 0 then front[j] == Request else front[j].Compared? && front[j].score <= t
    {
      assert front[j] == tr[j];
    }
  }

  lemma {:induction false} AlternatingCounts(t: real, tr: seq<Event>)
    requires Alternating(t, tr)
    ensures Requests(tr) == Comparisons(tr) == |tr| / 2
    decreases |tr|
  {
    var n := |tr|;
    if n > 0 {
      var front := tr[..n - 2];
      AlternatingDrop(t, tr);
      AlternatingCounts(t, front);
      var mid := tr[..n - 1];
      assert mid[..n - 2] == front;
      assert tr[n - 1].Compared? && tr[n - 1] != Request;
      assert mid[n - 2] == Request && !mid[n - 2].Compared?;
      assert Requests(mid) == Requests(front) + 1;
      assert Comparisons(mid) == Comparisons(front);
      assert Requests(tr) == Requests(mid);
      assert Comparisons(tr) == Comparisons(mid) + 1;
    }
  }

  /** Requests and results among the pending events. */
  lemma PendingCounts(r: Run)
    requires Shaped(r) && r.proc.config.Some?
    ensures Requests(Pending(r)) == if r.phase.Countdown? || Pending(r) == [Finished(false)] then 0 else 1
    ensures Comparisons(Pending(r)) == if r.phase == Done(true) then 1 else 0
  {
    var tail := Pending(r);
    PendingShape(r);
    CountsSingle(Request);
    if r.phase == Done(true) {
      var s := tail[1];
      assert tail == [Request, s] + [Finished(true)];
      assert [Request, s] == [Request] + [s];
      CountsSingle(s);
      CountsSingle(Finished(true));
      CountsAppend([Request], [s]);
      CountsAppend([Request, s], [Finished(true)]);
    } else if r.phase == Done(false) {
      CountsSingle(Finished(false));
      if tail != [Finished(false)] {
        assert tail == [Request] + [Finished(false)];
        CountsAppend([Request], [Finished(false)]);
      }
    }
  }

  /**
    Every `comparison_done` directly follows a `request_image`, and requests
    outnumber comparisons by exactly one while the last request is still
    unanswered, by none otherwise.
   */
  lemma RequestsPairWithComparisons(p: Processor, inputs: seq<Input>)
    requires Consistent(p) && AllFit(p, inputs)
    ensures var r := RunProcess(p, inputs);
      && (forall j :: 0 <= j < |r.trace| && r.trace[j].Compared? ==> j > 0 && r.trace[j - 1] == Request)
      && (Requests(r.trace) == Comparisons(r.trace) || Requests(r.trace) == Comparisons(r.trace) + 1)
      && (r.phase.Awaiting? || r.phase.Aborted? ==> Requests(r.trace) == Comparisons(r.trace) + 1)
      && (r.phase.Countdown? || r.phase == Done(true) ==> Requests(r.trace) == Comparisons(r.trace))
  {
    var r := RunProcess(p, inputs);
    RunShaped(p, inputs);
    if r.proc.config.None? {
      CountsSingle(Finished(false));
    } else {
      ComparedFacts(r);
      Decompose(r);
      AlternatingCounts(r.proc.config.value.threshold, Completed(r));
      CountsAppend(Completed(r), Pending(r));
      PendingCounts(r);
    }
  }

  // ---------------------------------------------------------------------------
  // exiting

  /**
    A live run that finds `exiting` set at its next check returns
    `finished(False)` there, with no comparison in that cycle and nothing
    after it.
   */
  lemma {:induction false} StopEndsRun(r: Run, inputs: seq<Input>)
    requires Valid(r) && AllFit(r.proc, inputs) && Live(r.phase)
    requires |inputs| > 0 && (r.proc.exiting || inputs[0].stop)
    ensures Exec(r, inputs).phase == Done(false)
    ensures Exec(r, inputs).trace == r.trace + [Finished(false)]
  {
    ExecEnded(Step(r, inputs[0]), inputs[1..]);
  }

  /** Setting `exiting` before check `k` of a run still live there ends the run at that check. */
  lemma StopObservedAtNextCheck(p: Processor, inputs: seq<Input>, k: nat)
    requires Consistent(p) && AllFit(p, inputs)
    requires k < |inputs| && inputs[k].stop
    requires AllFit(p, inputs[..k]) && Live(RunProcess(p, inputs[..k]).phase)
    ensures RunProcess(p, inputs).phase == Done(false)
    ensures RunProcess(p, inputs).trace == RunProcess(p, inputs[..k]).trace + [Finished(false)]
  {
    assert inputs == inputs[..k] + inputs[k..];
    ExecAppend(Start(p), inputs[..k], inputs[k..]);
    StopEndsRun(RunProcess(p, inputs[..k]), inputs[k..]);
  }

  // ---------------------------------------------------------------------------
  // Countdown

  /** No `exiting` in any of `inputs`. */
  predicate Quiet(inputs: seq<Input>)
  {
    forall j :: 0 <= j < |inputs| ==> !inputs[j].stop
  }

  /**
    The first `remaining` checks of a countdown never request an image: they
    either tick or return `finished(False)`. Undisturbed, they tick exactly
    once each.
   */
  lemma {:induction false} CountdownTicks(r: Run, inputs: seq<Input>)
    requires Valid(r) && AllFit(r.proc, inputs)
    requires r.phase.Countdown? && |inputs| <= r.phase.remaining
    ensures Exec(r, inputs).trace == r.trace || Exec(r, inputs).trace == r.trace + [Finished(false)]
    ensures !r.proc.exiting && Quiet(inputs) ==>
      Exec(r, inputs).phase == Countdown(r.phase.remaining - |inputs|) && Exec(r, inputs).trace == r.trace
    decreases |inputs|
  {
    if |inputs| > 0 {
      var r' := Step(r, inputs[0]);
      if r'.phase.Done? {
        ExecEnded(r', inputs[1..]);
      } else {
        CountdownTicks(r', inputs[1..]);
      }
    }
  }

  /**
    Undisturbed, a countdown from `n` requests an image at its
    `max(n, 0) + 1`-th check, after `n` ticks when `n` is positive and at
    once otherwise, and parks.
   */
  lemma {:induction false} CountdownRequests(r: Run, inputs: seq<Input>)
    requires Valid(r) && AllFit(r.proc, inputs)
    requires r.phase.Countdown? && |inputs| == (if r.phase.remaining > 0 then r.phase.remaining else 0) + 1
    requires !r.proc.exiting && Quiet(inputs)
    ensures Exec(r, inputs).phase == Awaiting
    ensures Exec(r, inputs).trace == r.trace + [Request]
  {
    var n := |inputs| - 1;
    assert inputs == inputs[..n] + [inputs[n]];
    ExecSnoc(r, inputs[..n], inputs[n]);
    if r.phase.remaining > 0 {
      CountdownTicks(r, inputs[..n]);
    } else {
      assert inputs[..n] == [];
    }
    StoredImageIsLatest(r, inputs[..n]);
  }

  // ---------------------------------------------------------------------------
  // The operands of a comparison

  /** The image most recently passed to `set_cyclic_image`, starting from `c`. */
  function Latest(c: Option<Image>, inputs: seq<Input>): Option<Image>
    decreases |inputs|
  {
    if |inputs| == 0 then c
    else if inputs[|inputs| - 1].image.Some? then inputs[|inputs| - 1].image
    else Latest(c, inputs[..|inputs| - 1])
  }

  /**
    `process` never changes the stored image nor clears `exiting`: after any
    observations the stored image is the latest one passed, and the flag is
    set exactly when it was set at the start or by some input.
   */
  lemma {:induction false} StoredImageIsLatest(r: Run, inputs: seq<Input>)
    requires Valid(r) && AllFit(r.proc, inputs)
    ensures Exec(r, inputs).proc.cyclic == Latest(r.proc.cyclic, inputs)
    ensures Exec(r, inputs).proc.exiting <==> r.proc.exiting || exists j :: 0 <= j < |inputs| && inputs[j].stop
    decreases |inputs|
  {
    var n := |inputs|;
    if n > 0 {
      var front := inputs[..n - 1];
      assert inputs == front + [inputs[n - 1]];
      ExecSnoc(r, front, inputs[n - 1]);
      StoredImageIsLatest(r, front);
      assert forall j :: 0 <= j < n - 1 ==> front[j] == inputs[j];
    }
  }

  /**
    When a check produces a `comparison_done`, its value is the comparison of
    the reference stored by `config` with the image most recently passed to
    `set_cyclic_image`, whenever that happened. The threshold stored by
    `config` then decides: above it the run returns `finished(True)`,
    otherwise a fresh countdown of `cycle_time` ticks starts. Conversely, a
    parked run woken without `exiting`, with an image stored and a reference
    that has pixels, always produces a `comparison_done`.
   */
  lemma ComparisonOperands(p: Processor, inputs: seq<Input>)
    requires Consistent(p) && AllFit(p, inputs) && |inputs| > 0
    ensures AllFit(p, inputs[..|inputs| - 1])
    ensures var before, after := RunProcess(p, inputs[..|inputs| - 1]), RunProcess(p, inputs);
      |after.trace| > |before.trace| && after.trace[|before.trace|].Compared? ==>
        && before.phase == Awaiting
        && !after.proc.exiting
        && p.config.Some?
        && p.config.value.reference.width * p.config.value.reference.height > 0
        && Latest(p.cyclic, inputs).Some?
        && SameShape(p.config.value.reference, Latest(p.cyclic, inputs).value)
        && CompareImages(p.config.value.reference, Latest(p.cyclic, inputs).value)
           == Success(after.trace[|before.trace|].score)
        && (after.trace[|before.trace|].score > p.config.value.threshold ==> after.phase == Done(true))
        && (after.trace[|before.trace|].score <= p.config.value.threshold ==>
              after.phase == Countdown(p.config.value.cycleTime))
    ensures var before, after := RunProcess(p, inputs[..|inputs| - 1]), RunProcess(p, inputs);
      before.phase == Awaiting && !after.proc.exiting && Latest(p.cyclic, inputs).Some? &&
      p.config.Some? && p.config.value.reference.width * p.config.value.reference.height > 0 ==>
        |after.trace| > |before.trace| && after.trace[|before.trace|].Compared?
  {
    var n := |inputs|;
    var front := inputs[..n - 1];
    assert inputs == front + [inputs[n - 1]];
    ExecSnoc(Start(p), front, inputs[n - 1]);
    StoredImageIsLatest(Start(p), inputs);
  }

  /** A check appends at most one `comparison_done`, as its first new signal. */
  lemma StepComparesFirst(r: Run, i: Input)
    requires Valid(r) && InputFits(r.proc, i)
    ensures forall j :: |r.trace| < j < |Step(r, i).trace| ==> !Step(r, i).trace[j].Compared?
  {
  }

  /**
    The signal at index `j` of the trace was emitted by the `k`-th check of
    `p`'s run over `inputs`, for some `k` > 0, and `s` is the score of
    comparing the configured reference with the image stored at that check.
   */
  predicate EmittedAgainst(p: Processor, inputs: seq<Input>, j: nat, s: real)
    requires Consistent(p)
  {
    && p.config.Some?
    && (exists k ::
          && 0 < k <= |inputs| && AllFit(p, inputs[..k - 1]) && AllFit(p, inputs[..k])
          && |RunProcess(p, inputs[..k - 1]).trace| <= j < |RunProcess(p, inputs[..k]).trace|
          && Latest(p.cyclic, inputs[..k]).Some?
          && SameShape(p.config.value.reference, Latest(p.cyclic, inputs[..k]).value)
          && CompareImages(p.config.value.reference, Latest(p.cyclic, inputs[..k]).value) == Success(s))
  }

  /** Later observations do not change which check emitted an earlier signal. */
  lemma EmittedAgainstGrows(p: Processor, inputs: seq<Input>, n: nat, j: nat, s: real)
    requires Consistent(p) && AllFit(p, inputs)
    requires n <= |inputs| && EmittedAgainst(p, inputs[..n], j, s)
    ensures EmittedAgainst(p, inputs, j, s)
  {
    var front := inputs[..n];
    var k :| 0 < k <= n && AllFit(p, front[..k - 1]) && AllFit(p, front[..k])
      && |RunProcess(p, front[..k - 1]).trace| <= j < |RunProcess(p, front[..k]).trace|
      && Latest(p.cyclic, front[..k]).Some?
      && SameShape(p.config.value.reference, Latest(p.cyclic, front[..k]).value)
      && CompareImages(p.config.value.reference, Latest(p.cyclic, front[..k]).value) == Success(s);
    assert front[..k] == inputs[..k];
    assert front[..k - 1] == inputs[..k - 1];
  }

  /**
    Every `comparison_done` of a run was emitted by a check that compared the
    reference with the image stored at that very check.
   */
  lemma {:induction false} AllComparisonOperands(p: Processor, inputs: seq<Input>)
    requires Consistent(p) && AllFit(p, inputs) && p.config.Some?
    ensures var tr := RunProcess(p, inputs).trace;
      forall j :: 0 <= j < |tr| && tr[j].Compared? ==> EmittedAgainst(p, inputs, j, tr[j].score)
    decreases |inputs|
  {
    var n := |inputs|;
    if n > 0 {
      var front := inputs[..n - 1];
      assert inputs == front + [inputs[n - 1]];
      assert AllFit(p, front);
      ExecSnoc(Start(p), front, inputs[n - 1]);
      var before := RunProcess(p, front);
      var after := RunProcess(p, inputs);
      assert after == Step(before, inputs[n - 1]);
      AllComparisonOperands(p, front);
      ComparisonOperands(p, inputs);
      StepComparesFirst(before, inputs[n - 1]);
      forall j | 0 <= j < |after.trace| && after.trace[j].Compared?
        ensures EmittedAgainst(p, inputs, j, after.trace[j].score)
      {
        if j < |before.trace| {
          assert after.trace[j] == before.trace[j];
          EmittedAgainstGrows(p, inputs, n - 1, j, after.trace[j].score);
        } else {
          assert j == |before.trace|;
          assert inputs[..n] == inputs && inputs[..n - 1] == front;
        }
      }
    }
  }

  /**
    `config(threshold, cycle_time, img_init)` followed by `process`: the first
    cycle counts down `cycle_time` ticks; every `comparison_done` compares
    `img_init` with the image stored at the check that emitted it; a result
    above `threshold` is followed by `finished(True)` alone; and a returned run
    reports `finished(True)` exactly when its last result exceeds `threshold`.
   */
  lemma ConfiguredRun(p: Processor, threshold: real, cycleTime: int, reference: Image, inputs: seq<Input>)
    requires Consistent(Configure(p, threshold, cycleTime, reference))
    requires AllFit(Configure(p, threshold, cycleTime, reference), inputs)
    ensures Start(Configure(p, threshold, cycleTime, reference)).phase == Countdown(cycleTime)
    ensures Start(Configure(p, threshold, cycleTime, reference)).trace == []
    ensures var r := RunProcess(Configure(p, threshold, cycleTime, reference), inputs);
      forall j :: 0 <= j < |r.trace| && r.trace[j].Compared? ==>
        && EmittedAgainst(Configure(p, threshold, cycleTime, reference), inputs, j, r.trace[j].score)
        && (r.trace[j].score > threshold ==> j == |r.trace| - 2 && r.trace[j + 1] == Finished(true) && r.phase == Done(true))
    ensures var r := RunProcess(Configure(p, threshold, cycleTime, reference), inputs);
      r.phase.Done? ==> (r.phase.exceeded <==> LastScore(r.trace).Some? && LastScore(r.trace).value > threshold)
  {
    var q := Configure(p, threshold, cycleTime, reference);
    AllComparisonOperands(q, inputs);
    BreachEndsRun(q, inputs);
    VerdictMatchesLastScore(q, inputs);
  }
}

=== FILE: wrappers.dfy ===
/** The `Option` and `Result` datatypes shared by the comparator and the processor. */
module Wrappers {

  /** A value that may be absent, as Python's `None`. */
  datatype Option<+T> = None | Some(value: T)

  /** The outcome of a computation that may raise. */
  datatype Result<+R, +E> = Success(value: R) | Failure(error: E)
}
